=== FILE: README.md ===
# bdux-logger, modelled in Dafny

This project models `src/logger.js` of bdux-logger. That file is a logging tap
for a store pipeline. It has two "pluggables". A pre-reduce pluggable logs each
dispatched action once; a post-reduce pluggable logs each change of store state.
Both pass every event on unchanged. What gets written is decided by a
process-wide settings object (`config`) and by what the host console can do.

The model is pure. The module state of `logger.js` is the record
`LoggerState.Logger(params, prev)`: the settings and the single dedupe slot.
Every push is a step function. It takes the settings, a `Capability` record
(is there a `window`, which group functions the console has), the slot and one
event. It returns the new slot, the ordered console calls it makes (`Log`,
`Info`, `Group`, `GroupCollapsed`, `GroupEnd`, each `Log`/`Info` tagged with the
sink it reaches), and the event passed downstream.

Modules, following the parts of `logger.js`:

- `Optional` (optional.dfy): the Some/None datatype for the dedupe slot and optional keys.
- `JsValues` (js_values.dfy): the JavaScript semantics the code relies on. These are truthiness, `===`, string conversion for `+`, and `String.prototype.trim` with the exact white-space set of ECMA-262.
- `Events` (events.dfy): actions (with all their fields) and the two event shapes, including the `action` a store event may carry.
- `ConfigStore` (config_store.dfy): the settings, `mergeConfig` and the default predicate. A map view shows that a merge is `Object.assign`.
- `ActionDeduper` (action_deduper.dfy): `skipDupeAction`, with a reference count of id changes.
- `ConsoleAdapter` (console_adapter.dfy): sink routing, the header (grouped or bold-cyan), and the conditional group end.
- `Pipelines` (pipelines.dfy): `logPreReduce` / `logPostReduce` and the traces they produce.
- `LoggerState` (logger_state.dfy): the module state machine, with `config` calls and pushes as inputs.
- `GroupNesting` (group_nesting.dfy): how group opens and closes nest on different hosts.
- `Scenarios` (scenarios.dfy): the behaviours the repository's tests exercise.

Three things `logger.js` does that are easy to misread:

- The dedupe slot is created once, when the module loads (`src/logger.js:95`). So every pre-reduce pluggable shares it. It is not one slot per pluggable. A store event or a `config` call between two pushes does not reset it.
- The override keys are `consoleLog` and `consoleInfo` (`src/logger.js:64-71`). An override is used only while it is truthy.
- A post-reduce event is logged only when `state !== nextState` (`src/logger.js:105`).

The repository's tests do not all agree with this code:

- The store-name test (`src/logger.spec.js:92-97`) pushes `{ name: 'test' }`. There `state` and `nextState` are both undefined, so the guard logs nothing (`Scenarios.StoreNameWithoutChangeLogsNothing`). Yet the test expects a header.
- The flat-header test (`src/logger.spec.js:66-72`) and the two group tests (`src/logger.spec.js:139-166`) cannot all pass in one host (`Scenarios.HeaderTestsNeedDifferentHosts`).

## Model

| member | source | states |
|---|---|---|
| `JsValues.ToJsString` | src/logger.js:98 | the string conversion behind `'ACTION_' + action.type` (and `' STORE_' + name`, line 106): `undefined` gives `undefined` (so a type-less action's header is `ACTION_undefined`), `null` gives `null`, an object gives `[object Object]`, a string is kept as is, a boolean gives `true`/`false`, and a number gives a `-` exactly when negative followed by a canonical numeral (no leading zero) that denotes its magnitude |
| `JsValues.NumeralsDistinct` | src/logger.js:98 | distinct numbers convert to distinct strings, so distinct numeric action types give distinct headers |
| `JsValues.Trim` | src/logger.js:57 | the trimmed header text has no white space at either end, and the input is that text with only white space before and after it |
| `JsValues.TrimUnpads` | src/logger.js:57 | trimming any white-space padding of a string without edge white space gives back exactly that string; with Trim's contract this fixes the result of `trim` |
| `JsValues.TrimKeeps` | src/logger.js:57 | a title with no white space at its ends is written unchanged |
| `JsValues.TrimIdempotent` | src/logger.js:57 | trimming twice is trimming once |
| `ConfigStore.Merge` | src/logger.js:12-16 | an addition that is not an object leaves the settings unchanged; an object is merged like `Object.assign`: as key/value maps, the result is the old settings overridden by the addition's keys, so the given keys overwrite and all other keys are untouched |
| `ConfigStore.Combine` | src/logger.js:12-16 | two additions combine into the one object holding the keys of both, the later value winning |
| `ConfigStore.MergeIdempotent` | src/logger.js:24-26 | calling `config` twice with the same addition is the same as once |
| `ConfigStore.MergeTwice` | src/logger.js:24-26 | two `config` calls in a row equal one call with the combined addition |
| `ConfigStore.InitialConfigDefaults` | src/logger.js:8-22 | at load `collapsed` is `false` and no sink is overridden; the default predicate rejects an action event exactly when `action.skipLog` is `true`, rejects a store event exactly when the action it carries has `skipLog` `true`, and accepts `{}` |
| `ConsoleAdapter.BoldCyanRoundTrip` | src/logger.js:4-6 | the bold-cyan styling can be undone: the decoder returns the text of every styled line, and accepts only styled lines |
| `ConsoleAdapter.LogSink` | src/logger.js:63-67 | `log` goes to the `consoleLog` override exactly when one is set (truthy), else to the host console |
| `ConsoleAdapter.InfoSink` | src/logger.js:69-73 | `info` goes to the `consoleInfo` override exactly when one is set (truthy), else to the host console |
| `ConsoleAdapter.ConsoleGroup` | src/logger.js:75-79 | the header is a group call iff there is a window and both `group` and `groupCollapsed`; it is collapsed iff the `collapsed` setting is truthy; otherwise it is one line on the log sink whose unstyled text is the trimmed title |
| `ConsoleAdapter.ConsoleGroupEnd` | src/logger.js:85-92 | a group end is written iff the console has `groupEnd`, whatever the window; otherwise nothing is written |
| `ActionDeduper.SkipDupeAction` | src/logger.js:29-38 | the wrapped function runs iff the slot is empty or holds another id; when it runs the slot takes the action, when it does not the slot is unchanged; either way the slot then remembers the incoming id |
| `ActionDeduper.ForwardedCountsIdChanges` | src/logger.js:29-38 | over any sequence of calls the wrapped function runs once per change of id (independent reference count), and the slot ends on the last id |
| `ActionDeduper.ForwardedNeverRepeats` | src/logger.js:29-38 | no two consecutive runs are for the same id, and the first is for an id other than the one remembered before |
| `ActionDeduper.SameIdTwiceForwardsOnce` | src/logger.spec.js:83-90 | two consecutive calls with one id run the function exactly once when the slot held another id or none, and never otherwise |
| `Pipelines.LogDispatch` | src/logger.js:94-102 | a logged dispatch makes exactly, in order: `log('\n')`, the header for `'ACTION_' + type`, `info('dispatch:', action)`, then a group end if available |
| `Pipelines.LogTransition` | src/logger.js:104-111 | nothing is logged iff `state === nextState`; otherwise: the header for `' STORE_' + name`, `log('from state:', state)`, `log('next state:', nextState)`, then a group end if available |
| `Pipelines.ShouldLog` | src/logger.js:113-115 | the verdict is the predicate of the settings current at the push; under the default predicate an event is logged exactly when its `action` (if any) does not have `skipLog === true` |
| `Pipelines.PreReduce` | src/logger.js:117-120 | the predicate runs before the dedupe filter: a rejected action logs nothing and leaves the slot alone; calls are made iff the predicate accepts and the id differs from the slot's; the action always passes on unchanged |
| `Pipelines.PostReduce` | src/logger.js:122-125 | calls are made iff the predicate accepts and the state changed; the dedupe slot is never touched; the event always passes on unchanged |
| `LoggerState.Handle` | src/logger.js:127-145 | a `config` call sets the settings to the merge of the old ones with its argument, logs nothing and keeps the slot, and `config()` changes nothing; an action push makes exactly the calls and slot change of the pre-reduce step, a store push those of the post-reduce step; a push keeps the settings and emits its event; only an action push can change the shared slot |
| `LoggerState.EveryPushIsEmitted` | src/logger.js:127-145 | over any session the outputs emit exactly the pushed events, once each and in order, whatever was logged |
| `LoggerState.PushesKeepSettings` | src/logger.js:18-27 | pushes never change the settings |
| `LoggerState.OneDispatchLine` | src/logger.js:95-102 | a logged dispatch writes exactly one info line |
| `LoggerState.DispatchesFollowIdChanges` | src/logger.js:95-120 | over a run of action pushes, the number of dispatch lines equals the number of id changes among the actions the predicate accepts, counting from the slot's id |
| `GroupNesting.StepNesting` | src/logger.js:95-111 | a logged section moves the group depth up by one if its header opened a group and down by one if it ends with a group end |
| `GroupNesting.BalancedWhenCapabilitiesAgree` | src/logger.js:75-92 | when the console can end groups exactly where it can open them, every session's group calls are properly nested and balanced |
| `GroupNesting.SessionsBalanced` | src/logger.js:75-92 | on such a host every session's trace opens and closes groups in matching pairs, with none left open |
| `GroupNesting.TerminalEndsUnopenedGroup` | src/logger.js:40-48 | without grouping (no window, or no `group` or `groupCollapsed`) but with `groupEnd`, every logged section ends a group it never opened |
| `GroupNesting.BrowserWithoutGroupEndNests` | src/logger.js:40-48 | with grouping but no `groupEnd`, every logged section leaves its group open |
| `Scenarios.ActionTypeHeader` | src/logger.spec.js:66-72 | in a terminal with stub sinks, a new action of type `type` produces the literal calls, with the bold-cyan `ACTION_type` line as the last log call |
| `Scenarios.DuplicateActionLoggedOnce` | src/logger.spec.js:83-90 | pushing the same action twice writes the dispatch line once when its id is new to the slot, and never when the slot already holds it |
| `Scenarios.StoreNameWithoutChangeLogsNothing` | src/logger.spec.js:92-97 | `{ name: 'test' }` logs nothing, because both states are undefined |
| `Scenarios.StoreHeaderTrimmed` | src/logger.spec.js:92-97 | with a changed state, a terminal writes the store header as bold-cyan `STORE_test`, the leading space trimmed |
| `Scenarios.StatesLogged` | src/logger.spec.js:99-111 | `{ state: 'test' }` logs `from state:`, `'test'` and `{ nextState: 'next' }` logs `next state:`, `'next'` on the log sink |
| `Scenarios.NullOverrideFallsBack` | src/logger.spec.js:113-137 | setting `consoleLog` or `consoleInfo` to `null` sends those calls back to the host console |
| `Scenarios.BrowserGroups` | src/logger.spec.js:139-166 | in a browser the header is `group` while `collapsed` is falsy and `groupCollapsed` after `config({ collapsed: true })` |
| `Scenarios.GroupEndWheneverAvailable` | src/logger.spec.js:168-179 | a logged dispatch ends with a group end whenever the console has `groupEnd` |
| `Scenarios.ConfigureCollapse` | src/logger.spec.js:181-188 | `config({ collapsed: true })` makes `collapsed` `true` and keeps the predicate; a following `config()` returns the same settings and changes nothing |
| `Scenarios.RejectingPredicateSilences` | src/logger.spec.js:190-197 | after installing a predicate that answers false, a push makes no call and leaves the slot alone, but its event is still emitted |
| `Scenarios.PredicateBeforeDedupe` | src/logger.js:117-120 | an action the predicate rejects does not enter the slot, so a later accepted action with the same id is logged |
| `Scenarios.SlotOutlivesOtherInputs` | src/logger.js:95 | the slot belongs to the module: a store event or `config` call between two pushes of one id does not reset it |
| `Scenarios.HeaderTestsNeedDifferentHosts` | src/logger.spec.js:139-166 | no host makes the header a log line unstubbed but a group call once either `group` or `groupCollapsed` is stubbed |
| `Scenarios.SkipLogSilencesBothPipelines` | src/logger.js:8-10 | from module load, an action with `skipLog: true` is logged by neither pluggable (not as a dispatch, not as the cause of a state change) and does not enter the slot; an unmarked action is logged by both |

## Left out

- Bacon streams: a `Bus` and `doAction` are modelled as "emit the event after the side effect". In Bacon the side effect runs only while the output has a subscriber. That laziness belongs to the library, so it is not modelled.
- `ActionDeduper.SkipDupeAction`: pushed actions are treated as immutable snapshots. The source keeps the action object itself in the slot (`src/logger.js:34`) and reads its `id` again at the next call (`src/logger.js:33`). So changing an action's `id` after pushing it is not modelled: pushing `a = { id: 1 }`, setting `a.id = 2`, and pushing `a` again logs nothing in the source, but the model compares 1 with 2 and logs.
- `config` returns the settings object itself (`src/logger.js:24-26`), the very object the module keeps. Changing that object in place, as in `config().collapsed = true`, changes later pushes in the source without any `config(...)` call. That is not modelled: `Snapshot` is a value, and only `config` calls change the settings.
- Re-entrant and stateful callbacks: the predicate and the override sinks are assumed pure and not to call back into the logger. The source reads `config()` afresh at every call (`src/logger.js:51`, `58`, `64`, `70`, `114`), so an override that runs `config({ consoleLog: null })` part-way through a push reroutes the rest of that push. A stateful predicate, such as a stub that answers differently on each call, can also answer differently for equal events. The model reads the settings once per push, and it types the predicate as a fixed function of the event.
- Host probing: `typeof window` and `typeof console.group` etc. are not read from a real console. They become the `Capability` record.
- Variadic `apply` and the `this` binding of override sinks are not modelled. A call is recorded as its sink and its argument list.
- Runtime errors are not modelled: a non-callable `predicate`, an override that is truthy but not a function, and an override that throws. Each surfaces as a host `TypeError` or exception. So `predicate` is typed as a total function of events, and an override is either unset or a function.
- `Override.Unset` stands for a missing key and for every falsy value alike. The logger reads them alike. So whether the settings object has the key at all is not kept.
- Actions that are not objects are not modelled. This includes the string pushed by `src/logger.spec.js:74-81`. An action is a record whose missing fields read as `undefined`.
- JavaScript numbers are modelled as integers. Floating point, `NaN`, and the exponent notation of `ToString` for magnitudes of 1e21 and above are not modelled. An object reference converts to `"[object Object]"`. Arrays, functions and custom `toString` methods are not modelled.
- Whether an argument of `config` counts as an object (`R.is(Object)`) is not modelled. The caller picks `NotAnObject` or `AnObject`, so edge cases such as `Object.create(null)` are the caller's classification.
- Ramda internals are not modelled, and neither are the sinon/chai test scaffolding and the `main` entry module.

=== FILE: action_deduper.dfy ===
/**
 `skipDupeAction`: a single remembered action, and a wrapped logging function
 that runs only when the incoming action's id differs from the remembered one.
 */
module ActionDeduper {
  import opened Optional
  import opened JsValues
  import opened Events

  /** The id the slot remembers; `None` while it is still empty. */
  function SlotId(prev: Option<Action>): Option<Value>
  {
    if prev.None? then None else Some(prev.value.id)
  }

  /** The slot after a call, and whether the wrapped function ran. */
  datatype Decision = Decision(prev: Option<Action>, forward: bool)

  /** One call of the wrapped function: it runs iff the slot is empty or holds
      another id (`!==`), and then the slot takes the incoming action. Either
      way the slot ends up remembering the incoming id. */
  function SkipDupeAction(prev: Option<Action>, a: Action): (d: Decision)
    ensures d.forward <==> SlotId(prev) != Some(a.id)
    ensures d.forward ==> d.prev == Some(a)
    ensures !d.forward ==> d.prev == prev
    ensures SlotId(d.prev) == Some(a.id)
  {
    if prev.None? || prev.value.id != a.id then Decision(Some(a), true)
    else Decision(prev, false)
  }

  function Ids(actions: seq<Action>): (ids: seq<Value>)
    ensures |ids| == |actions|
    ensures forall i :: 0 <= i < |actions| ==> ids[i] == actions[i].id
  {
    if actions == [] then [] else [actions[0].id] + Ids(actions[1..])
  }

  /** Reference count: how many ids differ from the id just before them, the
      first one being compared with `last`. */
  function IdChanges(last: Option<Value>, ids: seq<Value>): nat
    decreases |ids|
  {
    if ids == [] then 0
    else (if last == Some(ids[0]) then 0 else 1) + IdChanges(Some(ids[0]), ids[1..])
  }

  /** The actions the wrapped function runs for, over a sequence of calls. */
  function Forwarded(prev: Option<Action>, actions: seq<Action>): seq<Action>
    decreases |actions|
  {
    if actions == [] then []
    else
      var d := SkipDupeAction(prev, actions[0]);
      (if d.forward then [actions[0]] else []) + Forwarded(d.prev, actions[1..])
  }

  /** The slot after a sequence of calls. */
  function SlotAfter(prev: Option<Action>, actions: seq<Action>): Option<Action>
    decreases |actions|
  {
    if actions == [] then prev else SlotAfter(SkipDupeAction(prev, actions[0]).prev, actions[1..])
  }

  /** The wrapped function runs once per change of id, and after a non-empty
      run the slot remembers the last id seen. */
  lemma {:induction false} ForwardedCountsIdChanges(prev: Option<Action>, actions: seq<Action>)
    ensures |Forwarded(prev, actions)| == IdChanges(SlotId(prev), Ids(actions))
    ensures actions != [] ==> SlotId(SlotAfter(prev, actions)) == Some(actions[|actions| - 1].id)
    ensures actions == [] ==> SlotAfter(prev, actions) == prev
    decreases |actions|
  {
    if actions != [] {
      var d := SkipDupeAction(prev, actions[0]);
      ForwardedCountsIdChanges(d.prev, actions[1..]);
      assert Ids(actions)[1..] == Ids(actions[1..]);
      if |actions| > 1 {
        assert actions[1..][|actions[1..]| - 1] == actions[|actions| - 1];
      }
    }
  }

  /** No two consecutive runs of the wrapped function are for the same id, and
      the first is for an id other than the one remembered beforehand. */
  lemma {:induction false} ForwardedNeverRepeats(prev: Option<Action>, actions: seq<Action>)
    ensures var f := Forwarded(prev, actions);
      && (f != [] ==> SlotId(prev) != Some(f[0].id))
      && forall i :: 0 < i < |f| ==> f[i - 1].id != f[i].id
    decreases |actions|
  {
    if actions != [] {
      var d := SkipDupeAction(prev, actions[0]);
      var rest := Forwarded(d.prev, actions[1..]);
      ForwardedNeverRepeats(d.prev, actions[1..]);
      if d.forward && rest != [] {
        assert SlotId(d.prev) == Some(actions[0].id);
      }
    }
  }

  /** The same id twice in a row runs the wrapped function at most once, and
      exactly once when the slot did not already hold that id. */
  lemma SameIdTwiceForwardsOnce(prev: Option<Action>, a: Action, b: Action)
    requires a.id == b.id
    ensures |Forwarded(prev, [a, b])| == (if SlotId(prev) == Some(a.id) then 0 else 1)
  {
    var d := SkipDupeAction(prev, a);
    assert [a, b][1..] == [b];
    assert [b][1..] == [];
    assert Forwarded(d.prev, [b]) == (if SkipDupeAction(d.prev, b).forward then [b] else []) + Forwarded(SkipDupeAction(d.prev, b).prev, []);
    assert !SkipDupeAction(d.prev, b).forward;
  }
}

=== FILE: config_store.dfy ===
/**
 The process-wide settings of the logger and `config(addition)`, which merges an
 addition into them when it is an object and otherwise only reads them.
 */
module ConfigStore {
  import opened Optional
  import opened JsValues
  import opened Events

  /** A `consoleLog` / `consoleInfo` setting. `Unset` stands for every value the
      logger treats alike: a missing key, `undefined`, `null` or any other falsy
      value. `Use(sink)` is a function that receives the calls, known by `sink`. */
  datatype Override = Unset | Use(sink: nat)

  /** The keys whose values the logger reads. */
  const KnownKeys: set<string> := {"collapsed", "predicate", "consoleLog", "consoleInfo"}

  /** Every other key an addition may carry; they are kept but never read. */
  type Extras = m: map<string, Value> | m.Keys !! KnownKeys witness map[]

  /** The settings object. `predicateFn` is the `predicate` key: the truthiness
      of what the predicate returns for an event. */
  datatype Config = Config(
    collapsed: Value,
    predicateFn: Event -> bool,
    consoleLog: Override,
    consoleInfo: Override,
    others: Extras)

  /** An object passed to `config`: `None` where it does not have the key. */
  datatype Partial = Partial(
    collapsed: Option<Value>,
    predicateFn: Option<Event -> bool>,
    consoleLog: Option<Override>,
    consoleInfo: Option<Override>,
    others: Extras)

  /** The argument of `config`: absent, `undefined`, `null` and every primitive
      are `NotAnObject`; anything `R.is(Object)` accepts is `AnObject`. */
  datatype Addition = NotAnObject | AnObject(fields: Partial)

  /** The default predicate: log unless the event's `action.skipLog` is
      exactly `true`, whichever pipeline the event goes through. */
  predicate HasNoSkipLog(e: Event)
  {
    !(EventAction(e).Some? && EventAction(e).value.skipLog == Bool(true))
  }

  /** The settings at module load. */
  function InitialConfig(): Config
  {
    Config(Bool(false), HasNoSkipLog, Unset, Unset, map[])
  }

  /** The value a settings key holds. */
  datatype Setting = Plain(value: Value) | PredicateFn(f: Event -> bool) | OverrideFn(o: Override)

  /** The value the settings hold under a key they have. */
  ghost function SettingAt(c: Config, k: string): Setting
    requires k in KnownKeys || k in c.others
  {
    if k == "collapsed" then Plain(c.collapsed)
    else if k == "predicate" then PredicateFn(c.predicateFn)
    else if k == "consoleLog" then OverrideFn(c.consoleLog)
    else if k == "consoleInfo" then OverrideFn(c.consoleInfo)
    else Plain(c.others[k])
  }

  /** The settings as the JavaScript object they are: a map from key to value. */
  ghost function View(c: Config): map<string, Setting>
  {
    map k | k in KnownKeys + c.others.Keys :: SettingAt(c, k)
  }

  /** The keys an addition has. */
  ghost function PartialKeys(p: Partial): set<string>
  {
    p.others.Keys
      + (if p.collapsed.Some? then {"collapsed"} else {})
      + (if p.predicateFn.Some? then {"predicate"} else {})
      + (if p.consoleLog.Some? then {"consoleLog"} else {})
      + (if p.consoleInfo.Some? then {"consoleInfo"} else {})
  }

  /** The value an addition has under one of its keys. */
  ghost function PartialAt(p: Partial, k: string): Setting
    requires k in PartialKeys(p)
  {
    if k == "collapsed" then Plain(p.collapsed.value)
    else if k == "predicate" then PredicateFn(p.predicateFn.value)
    else if k == "consoleLog" then OverrideFn(p.consoleLog.value)
    else if k == "consoleInfo" then OverrideFn(p.consoleInfo.value)
    else Plain(p.others[k])
  }

  /** An addition as the JavaScript object it is: only the keys it has. */
  ghost function PartialView(p: Partial): map<string, Setting>
  {
    map k | k in PartialKeys(p) :: PartialAt(p, k)
  }

  function Pick<T>(given: Option<T>, current: T): T
  {
    if given.Some? then given.value else current
  }

  /** `mergeConfig(params, addition)`: an addition that is not an object leaves
      the settings as they are; an object is merged over them like
      `Object.assign({}, params, addition)`, i.e. the keys it has overwrite and
      every other key keeps its value. */
  function Merge(c: Config, a: Addition): (r: Config)
    ensures a.NotAnObject? ==> r == c
    ensures a.AnObject? ==> View(r) == View(c) + PartialView(a.fields)
  {
    match a
    case NotAnObject => c
    case AnObject(p) =>
      var r := Config(
        Pick(p.collapsed, c.collapsed),
        Pick(p.predicateFn, c.predicateFn),
        Pick(p.consoleLog, c.consoleLog),
        Pick(p.consoleInfo, c.consoleInfo),
        c.others + p.others);
      assert View(r) == View(c) + PartialView(p) by {
        forall k | k in View(r)
          ensures k in View(c) + PartialView(p) && View(r)[k] == (View(c) + PartialView(p))[k]
        {
        }
        assert View(r).Keys == (View(c) + PartialView(p)).Keys;
      }
      r
  }

  /** Two additions in a row act like one object holding the keys of both,
      the later one winning: `Object.assign` of the two. */
  function Combine(p: Partial, q: Partial): (r: Partial)
    ensures PartialView(r) == PartialView(p) + PartialView(q)
  {
    var r := Partial(
      if q.collapsed.Some? then q.collapsed else p.collapsed,
      if q.predicateFn.Some? then q.predicateFn else p.predicateFn,
      if q.consoleLog.Some? then q.consoleLog else p.consoleLog,
      if q.consoleInfo.Some? then q.consoleInfo else p.consoleInfo,
      p.others + q.others);
    CombineKeys(p, q, r);
    CombineValues(p, q, r);
    r
  }

  lemma CombineKeys(p: Partial, q: Partial, r: Partial)
    requires r.collapsed == if q.collapsed.Some? then q.collapsed else p.collapsed
    requires r.predicateFn == if q.predicateFn.Some? then q.predicateFn else p.predicateFn
    requires r.consoleLog == if q.consoleLog.Some? then q.consoleLog else p.consoleLog
    requires r.consoleInfo == if q.consoleInfo.Some? then q.consoleInfo else p.consoleInfo
    requires r.others == p.others + q.others
    ensures PartialKeys(r) == PartialKeys(p) + PartialKeys(q)
  {
  }

  lemma CombineValues(p: Partial, q: Partial, r: Partial)
    requires r.collapsed == if q.collapsed.Some? then q.collapsed else p.collapsed
    requires r.predicateFn == if q.predicateFn.Some? then q.predicateFn else p.predicateFn
    requires r.consoleLog == if q.consoleLog.Some? then q.consoleLog else p.consoleLog
    requires r.consoleInfo == if q.consoleInfo.Some? then q.consoleInfo else p.consoleInfo
    requires r.others == p.others + q.others
    requires PartialKeys(r) == PartialKeys(p) + PartialKeys(q)
    ensures PartialView(r) == PartialView(p) + PartialView(q)
  {
    forall k | k in PartialKeys(r)
      ensures PartialAt(r, k) == (PartialView(p) + PartialView(q))[k]
    {
      if k in PartialKeys(q) {
        assert (PartialView(p) + PartialView(q))[k] == PartialAt(q, k);
        SameAtCombined(p, q, r, k, q);
      } else {
        assert (PartialView(p) + PartialView(q))[k] == PartialAt(p, k);
        SameAtCombined(p, q, r, k, p);
      }
    }
  }

  lemma SameAtCombined(p: Partial, q: Partial, r: Partial, k: string, from: Partial)
    requires r.collapsed == if q.collapsed.Some? then q.collapsed else p.collapsed
    requires r.predicateFn == if q.predicateFn.Some? then q.predicateFn else p.predicateFn
    requires r.consoleLog == if q.consoleLog.Some? then q.consoleLog else p.consoleLog
    requires r.consoleInfo == if q.consoleInfo.Some? then q.consoleInfo else p.consoleInfo
    requires r.others == p.others + q.others
    requires from == (if k in PartialKeys(q) then q else p)
    requires k in PartialKeys(r) && k in PartialKeys(from)
    ensures PartialAt(r, k) == PartialAt(from, k)
  {
    if k !in KnownKeys {
      assert k in from.others;
    }
  }

  /** Merging the same addition twice is merging it once. */
  lemma MergeIdempotent(c: Config, a: Addition)
    ensures Merge(Merge(c, a), a) == Merge(c, a)
  {
  }

  /** Two merges in a row equal one merge of the combined addition. */
  lemma MergeTwice(c: Config, p: Partial, q: Partial)
    ensures Merge(Merge(c, AnObject(p)), AnObject(q)) == Merge(c, AnObject(Combine(p, q)))
  {
  }

  /** At module load `collapsed` is `false`, no sink is overridden, and the
      predicate rejects an event exactly when its action has `skipLog === true`;
      an object without an action, such as `{}`, is logged. */
  lemma InitialConfigDefaults()
    ensures InitialConfig().collapsed == Bool(false) && !Truthy(InitialConfig().collapsed)
    ensures InitialConfig().consoleLog == Unset && InitialConfig().consoleInfo == Unset
    ensures forall a: Action :: !InitialConfig().predicateFn(ActionEvent(a)) <==> a.skipLog == Bool(true)
    ensures forall n, s, t, c ::
      !InitialConfig().predicateFn(ReduceEvent(n, s, t, c)) <==> c.Some? && c.value.skipLog == Bool(true)
    ensures InitialConfig().predicateFn(ReduceEvent(Undefined, Undefined, Undefined, None))
  {
  }
}

=== FILE: console_adapter.dfy ===
/**
 The console adapter: where `log`, `info` and the group calls go, and how a
 section header is written when the host has no grouping.
 */
module ConsoleAdapter {
  import opened Optional
  import opened JsValues
  import opened Events
  import opened ConfigStore

  /** What the host offers: whether a `window` exists and which of the
      console's group functions are functions. */
  datatype Capability = Capability(
    hasWindow: bool,
    hasGroup: bool,
    hasGroupCollapsed: bool,
    hasGroupEnd: bool)

  /** Where a `log` or `info` call goes: the host console or a configured override. */
  datatype Sink = Ambient | Custom(id: nat)

  /** One argument of a console call. */
  datatype Arg = Text(text: string) | ValueArg(value: Value) | ActionArg(action: Action)

  /** One console call the logger makes. Group calls always go to the host console. */
  datatype ConsoleCall =
    | Log(to: Sink, args: seq<Arg>)
    | Info(to: Sink, args: seq<Arg>)
    | Group(title: string)
    | GroupCollapsed(title: string)
    | GroupEnd

  /** `hasConsoleGroup`: grouping is used only in a browser-like host whose
      console has both `group` and `groupCollapsed`. */
  predicate HasConsoleGroup(cap: Capability)
  {
    cap.hasWindow && cap.hasGroup && cap.hasGroupCollapsed
  }

  const Esc: char := 27 as char

  /** The ANSI sequences around a fallback header: bold and cyan on, then
      default colour and normal intensity. */
  const StyleOpen: string := [Esc] + "[1m" + [Esc] + "[36m"
  const StyleClose: string := [Esc] + "[39m" + [Esc] + "[22m"

  /** `boldCyan(text)`. */
  function BoldCyan(text: string): string
  {
    StyleOpen + text + StyleClose
  }

  /** Recovers the text inside a bold-cyan line, if the line is one. */
  function UnBoldCyan(line: string): Option<string>
  {
    if |line| >= |StyleOpen| + |StyleClose|
       && line[..|StyleOpen|] == StyleOpen
       && line[|line| - |StyleClose|..] == StyleClose
    then Some(line[|StyleOpen|..|line| - |StyleClose|])
    else None
  }

  /** Styling loses nothing: the text comes back out of every styled line, and
      every line the decoder accepts is the styling of what it returns. */
  lemma {:induction false} BoldCyanRoundTrip(text: string, line: string)
    ensures UnBoldCyan(BoldCyan(text)) == Some(text)
    ensures UnBoldCyan(line).Some? ==> BoldCyan(UnBoldCyan(line).value) == line
  {
    var s := BoldCyan(text);
    assert s[..|StyleOpen|] == StyleOpen;
    assert s[|s| - |StyleClose|..] == StyleClose;
    assert s[|StyleOpen|..|s| - |StyleClose|] == text;
    if UnBoldCyan(line).Some? {
      var t := line[|StyleOpen|..|line| - |StyleClose|];
      assert line == line[..|StyleOpen|] + t + line[|line| - |StyleClose|..];
    }
  }

  /** The sink a `consoleLog(...)` call reaches. */
  function LogSink(cfg: Config): (s: Sink)
    ensures s == Ambient <==> cfg.consoleLog == Unset
    ensures s.Custom? ==> cfg.consoleLog == Use(s.id)
  {
    match cfg.consoleLog
    case Unset => Ambient
    case Use(id) => Custom(id)
  }

  /** The sink a `consoleInfo(...)` call reaches. */
  function InfoSink(cfg: Config): (s: Sink)
    ensures s == Ambient <==> cfg.consoleInfo == Unset
    ensures s.Custom? ==> cfg.consoleInfo == Use(s.id)
  {
    match cfg.consoleInfo
    case Unset => Ambient
    case Use(id) => Custom(id)
  }

  /** `consoleLog(...args)`. */
  function ConsoleLog(cfg: Config, args: seq<Arg>): ConsoleCall
  {
    Log(LogSink(cfg), args)
  }

  /** `consoleInfo(...args)`. */
  function ConsoleInfo(cfg: Config, args: seq<Arg>): ConsoleCall
  {
    Info(InfoSink(cfg), args)
  }

  /** What a header for `description` looks like: a group call when grouping
      is available (collapsed exactly when the setting is truthy), else one
      line on the log sink whose unstyled text is the trimmed description. */
  ghost predicate IsHeader(c: ConsoleCall, cfg: Config, cap: Capability, description: string)
  {
    if HasConsoleGroup(cap) then
      c == (if Truthy(cfg.collapsed) then GroupCollapsed(description) else Group(description))
    else
      && c.Log?
      && c.to == LogSink(cfg)
      && |c.args| == 1
      && c.args[0].Text?
      && UnBoldCyan(c.args[0].text) == Some(Trim(description))
  }

  /** `consoleGroup(description)`. */
  function ConsoleGroup(cfg: Config, cap: Capability, description: string): (c: ConsoleCall)
    ensures IsHeader(c, cfg, cap, description)
    ensures c.Group? || c.GroupCollapsed? <==> HasConsoleGroup(cap)
  {
    if HasConsoleGroup(cap) then
      if Truthy(cfg.collapsed) then GroupCollapsed(description) else Group(description)
    else
      BoldCyanRoundTrip(Trim(description), "");
      Log(LogSink(cfg), [Text(BoldCyan(Trim(description)))])
  }

  /** `consoleGroupEnd()`: closes a group when the console can, whether or not
      a `window` exists, and does nothing otherwise. */
  function ConsoleGroupEnd(cap: Capability): (t: seq<ConsoleCall>)
    ensures |t| <= 1
    ensures t != [] <==> cap.hasGroupEnd
    ensures forall i :: 0 <= i < |t| ==> t[i] == GroupEnd
  {
    if cap.hasGroupEnd then [GroupEnd] else []
  }
}

=== FILE: events.dfy ===
/**
 The two kinds of event the store runtime pushes into the logger: `{ action }`
 before a reduction and `{ name, action, state, nextState }` after it.
 */
module Events {
  import opened Optional
  import opened JsValues

  /** The fields of an action object other than the three the logger reads. */
  type ActionFields = m: map<string, Value> | m.Keys !! {"id", "type", "skipLog"} witness map[]

  /** An action object. A field the object does not have reads as `Undefined`;
      `kind` is the action's `type` field, and `rest` keeps every other field,
      which a custom predicate may read and `info('dispatch:', action)` shows. */
  datatype Action = Action(id: Value, kind: Value, skipLog: Value, rest: ActionFields)

  /** An object with no `action` field, such as `{}`, is a `ReduceEvent` whose
      fields are all `Undefined` and whose `cause` is `None`. A store event's
      `cause` is the `action` field it carries, if that is an action object. */
  datatype Event =
    | ActionEvent(action: Action)
    | ReduceEvent(name: Value, state: Value, nextState: Value, cause: Option<Action>)

  /** The event's `action` field, when it holds an action object. */
  function EventAction(e: Event): Option<Action>
  {
    match e
    case ActionEvent(a) => Some(a)
    case ReduceEvent(_, _, _, cause) => cause
  }
}

=== FILE: group_nesting.dfy ===
/**
 How the logger's group calls nest. A header opens a group only where grouping
 is available (a `window` plus `group` and `groupCollapsed`), but a group end is
 written wherever the console has `groupEnd`; the two agree only on some hosts.
 */
module GroupNesting {
  import opened Optional
  import opened JsValues
  import opened Events
  import opened ConfigStore
  import opened ConsoleAdapter
  import opened Pipelines
  import opened LoggerState

  /** The open-group depth after a trace, starting at depth `d`; `None` once a
      group end arrives with no group open. */
  function NestedFrom(d: nat, t: seq<ConsoleCall>): Option<nat>
    decreases |t|
  {
    if t == [] then Some(d)
    else match t[0]
      case Group(_) => NestedFrom(d + 1, t[1..])
      case GroupCollapsed(_) => NestedFrom(d + 1, t[1..])
      case GroupEnd => if d == 0 then None else NestedFrom(d - 1, t[1..])
      case _ => NestedFrom(d, t[1..])
  }

  /** Every group end closes an open group and no group is left open. */
  predicate Balanced(t: seq<ConsoleCall>)
  {
    NestedFrom(0, t) == Some(0)
  }

  lemma {:induction false} NestedAppend(d: nat, a: seq<ConsoleCall>, b: seq<ConsoleCall>)
    ensures NestedFrom(d, a + b)
         == (if NestedFrom(d, a).None? then None else NestedFrom(NestedFrom(d, a).value, b))
    decreases |a|
  {
    if a == [] {
      assert a + b == b;
    } else {
      assert (a + b)[0] == a[0];
      assert (a + b)[1..] == a[1..] + b;
      match a[0]
      case Group(_) => NestedAppend(d + 1, a[1..], b);
      case GroupCollapsed(_) => NestedAppend(d + 1, a[1..], b);
      case GroupEnd => if d > 0 { NestedAppend(d - 1, a[1..], b); }
      case Log(_, _) => NestedAppend(d, a[1..], b);
      case Info(_, _) => NestedAppend(d, a[1..], b);
    }
  }

  /** The depth after one logged section, from depth `d`: one deeper if its
      header opened a group, one shallower if it ends with a group end. */
  function SectionDepth(cap: Capability, d: nat): Option<nat>
  {
    var deeper := if HasConsoleGroup(cap) then d + 1 else d;
    if !cap.hasGroupEnd then Some(deeper)
    else if deeper == 0 then None
    else Some(deeper - 1)
  }

  function Opens(c: ConsoleCall): nat
  {
    if c.Group? || c.GroupCollapsed? then 1 else 0
  }

  /** The depth change of a section: three calls that are not group ends and
      open one group exactly where grouping is available, then a group end if
      the console has one. */
  lemma SectionNesting(t: seq<ConsoleCall>, cap: Capability, d: nat)
    requires |t| == (if cap.hasGroupEnd then 4 else 3)
    requires !t[0].GroupEnd? && !t[1].GroupEnd? && !t[2].GroupEnd?
    requires Opens(t[0]) + Opens(t[1]) + Opens(t[2]) == (if HasConsoleGroup(cap) then 1 else 0)
    requires cap.hasGroupEnd ==> t[3] == GroupEnd
    ensures NestedFrom(d, t) == SectionDepth(cap, d)
  {
    var head, tail := t[..3], t[3..];
    assert t == head + tail;
    NestedAppend(d, head, tail);
    var s1, s2 := head[1..], head[2..];
    assert head[0] == t[0] && s1[0] == t[1] && s2[0] == t[2] && s2[1..] == [];
    var d1 := d + Opens(t[0]);
    var d2 := d1 + Opens(t[1]);
    var d3 := d2 + Opens(t[2]);
    assert NestedFrom(d, head) == NestedFrom(d1, s1);
    assert NestedFrom(d1, s1) == NestedFrom(d2, s2);
    assert NestedFrom(d2, s2) == NestedFrom(d3, []);
    if cap.hasGroupEnd {
      assert tail == [GroupEnd];
      assert tail[1..] == [];
    } else {
      assert tail == [];
    }
  }

  /** A header is a group call exactly where grouping is available, else a log line. */
  lemma HeaderKind(c: ConsoleCall, cfg: Config, cap: Capability, title: string)
    requires IsHeader(c, cfg, cap, title)
    ensures HasConsoleGroup(cap) ==> c.Group? || c.GroupCollapsed?
    ensures !HasConsoleGroup(cap) ==> c.Log?
  {
  }

  lemma PreReduceNesting(cfg: Config, cap: Capability, prev: Option<Action>, a: Action, d: nat)
    ensures var t := PreReduce(cfg, cap, prev, a).trace;
      t == [] || NestedFrom(d, t) == SectionDepth(cap, d)
  {
    var t := PreReduce(cfg, cap, prev, a).trace;
    if t != [] {
      assert t == LogDispatch(cfg, cap, a);
      DispatchNesting(cfg, cap, a, d);
    }
  }

  lemma DispatchNesting(cfg: Config, cap: Capability, a: Action, d: nat)
    ensures NestedFrom(d, LogDispatch(cfg, cap, a)) == SectionDepth(cap, d)
  {
    var t := LogDispatch(cfg, cap, a);
    HeaderKind(t[1], cfg, cap, ActionTitle(a));
    assert t[0].Log? && t[2].Info?;
    SectionNesting(t, cap, d);
  }

  lemma PostReduceNesting(cfg: Config, cap: Capability, prev: Option<Action>, n: Value, st: Value, nx: Value, c: Option<Action>, d: nat)
    ensures var t := PostReduce(cfg, cap, prev, n, st, nx, c).trace;
      t == [] || NestedFrom(d, t) == SectionDepth(cap, d)
  {
    var t := PostReduce(cfg, cap, prev, n, st, nx, c).trace;
    if t != [] {
      assert t == LogTransition(cfg, cap, n, st, nx);
      TransitionNesting(cfg, cap, n, st, nx, d);
    }
  }

  lemma TransitionNesting(cfg: Config, cap: Capability, n: Value, st: Value, nx: Value, d: nat)
    requires st != nx
    ensures NestedFrom(d, LogTransition(cfg, cap, n, st, nx)) == SectionDepth(cap, d)
  {
    var t := LogTransition(cfg, cap, n, st, nx);
    HeaderKind(t[0], cfg, cap, StoreTitle(n));
    assert t[1].Log? && t[2].Log?;
    SectionNesting(t, cap, d);
  }

  /** A logged dispatch or store transition moves the depth as SectionDepth says. */
  lemma StepNesting(lg: Logger, cap: Capability, i: Input, d: nat)
    ensures Handle(lg, cap, i).trace == [] || NestedFrom(d, Handle(lg, cap, i).trace) == SectionDepth(cap, d)
  {
    match i
    case CallConfig(_) =>
    case PushAction(a) => PreReduceNesting(lg.params, cap, lg.prev, a, d);
    case PushReduce(n, st, nx, c) => PostReduceNesting(lg.params, cap, lg.prev, n, st, nx, c, d);
  }

  /** When the console can end groups exactly where it can open them, every
      session's calls are properly nested and leave the depth where it was. */
  lemma {:induction false} BalancedWhenCapabilitiesAgree(lg: Logger, cap: Capability, inputs: seq<Input>, d: nat)
    requires HasConsoleGroup(cap) == cap.hasGroupEnd
    ensures NestedFrom(d, Run(lg, cap, inputs).trace) == Some(d)
    decreases |inputs|
  {
    if inputs == [] {
    } else {
      var o := Handle(lg, cap, inputs[0]);
      var rest := Run(o.logger, cap, inputs[1..]);
      StepNesting(lg, cap, inputs[0], d);
      NestedAppend(d, o.trace, rest.trace);
      BalancedWhenCapabilitiesAgree(o.logger, cap, inputs[1..], d);
    }
  }

  /** On such a host the whole trace of a session from module load, or from
      any other state, is balanced. */
  lemma SessionsBalanced(lg: Logger, cap: Capability, inputs: seq<Input>)
    requires HasConsoleGroup(cap) == cap.hasGroupEnd
    ensures Balanced(Run(lg, cap, inputs).trace)
  {
    BalancedWhenCapabilitiesAgree(lg, cap, inputs, 0);
  }

  /** In a host without grouping whose console has `groupEnd` (a terminal, or
      a browser console lacking `groupCollapsed`), every logged section ends a
      group it never opened: read from depth 0,
      its group end finds no open group. */
  lemma TerminalEndsUnopenedGroup(lg: Logger, cap: Capability, i: Input)
    requires !HasConsoleGroup(cap) && cap.hasGroupEnd
    ensures Handle(lg, cap, i).trace == [] || NestedFrom(0, Handle(lg, cap, i).trace).None?
  {
    StepNesting(lg, cap, i, 0);
  }

  /** In a browser whose console lacks `groupEnd`, every logged section leaves
      its group open, one level deeper each time. */
  lemma BrowserWithoutGroupEndNests(lg: Logger, cap: Capability, i: Input, d: nat)
    requires HasConsoleGroup(cap) && !cap.hasGroupEnd
    requires Handle(lg, cap, i).trace != []
    ensures NestedFrom(d, Handle(lg, cap, i).trace) == Some(d + 1)
  {
    StepNesting(lg, cap, i, d);
  }
}

=== FILE: js_values.dfy ===
/**
 The part of JavaScript's value semantics that the logger relies on: truthiness,
 strict equality, the string conversion behind `+` on a string, and
 `String.prototype.trim`.
 */
module JsValues {

  /** A JavaScript value as far as the logger inspects it. Numbers are integral
      (floating point is not modelled); objects, arrays and functions are known
      by their reference only, so Dafny's `==` on `Value` is JavaScript's `===`. */
  datatype Value =
    | Undefined
    | Null
    | Bool(b: bool)
    | Num(n: int)
    | Str(s: string)
    | Ref(address: nat)

  /** ToBoolean, section 7.1.2 of ECMA-262. */
  predicate Truthy(v: Value)
  {
    match v
    case Undefined => false
    case Null => false
    case Bool(b) => b
    case Num(n) => n != 0
    case Str(s) => s != ""
    case Ref(_) => true
  }

  function DigitChar(d: nat): char
    requires d < 10
  {
    ('0' as int + d) as char
  }

  predicate IsDigit(c: char)
  {
    '0' <= c <= '9'
  }

  predicate AllDigits(s: string)
  {
    forall i :: 0 <= i < |s| ==> IsDigit(s[i])
  }

  /** The number a string of decimal digits denotes. */
  function DigitsValue(s: string): nat
    requires AllDigits(s)
    decreases |s|
  {
    if s == [] then 0
    else DigitsValue(s[..|s| - 1]) * 10 + (s[|s| - 1] as int - '0' as int)
  }

  /** A numeral as ToString writes it: at least one digit and no leading zero. */
  predicate Canonical(s: string)
  {
    |s| >= 1 && AllDigits(s) && (|s| > 1 ==> s[0] != '0')
  }

  /** The decimal numeral of a natural number: canonical, and denoting `n`. */
  function Decimal(n: nat): (r: string)
    ensures Canonical(r) && DigitsValue(r) == n
    decreases n
  {
    if n < 10 then [DigitChar(n)]
    else
      var high := Decimal(n / 10);
      var r := high + [DigitChar(n % 10)];
      assert r[..|r| - 1] == high;
      assert r[0] == high[0];
      r
  }

  /** ToString, section 7.1.17 of ECMA-262, as used by `'ACTION_' + type`.
      An object reference is rendered like a plain object. */
  function ToJsString(v: Value): (r: string)
    ensures v == Undefined ==> r == "undefined"
    ensures v == Null ==> r == "null"
    ensures v.Ref? ==> r == "[object Object]"
    ensures v.Str? ==> r == v.s
    ensures v.Bool? ==> (r == "true" <==> v.b) && (r == "false" <==> !v.b)
    ensures v.Num? ==> |r| >= 1 && (r[0] == '-' <==> v.n < 0)
    ensures v.Num? ==> var digits := if v.n < 0 then r[1..] else r;
      Canonical(digits) && DigitsValue(digits) == (if v.n < 0 then -v.n else v.n)
  {
    match v
    case Undefined => "undefined"
    case Null => "null"
    case Bool(b) => if b then "true" else "false"
    case Num(n) => if n < 0 then "-" + Decimal(-n) else Decimal(n)
    case Str(s) => s
    case Ref(_) => "[object Object]"
  }

  /** Distinct numbers have distinct string forms, so distinct numeric action
      types give distinct headers. */
  lemma NumeralsDistinct(m: int, n: int)
    ensures ToJsString(Num(m)) == ToJsString(Num(n)) ==> m == n
  {
  }

  /** WhiteSpace and LineTerminator code points, sections 12.2 and 12.3 of
      ECMA-262: the characters `String.prototype.trim` removes. */
  predicate IsJsSpace(c: char)
  {
    var k := c as int;
    || k == 0x09 || k == 0x0A || k == 0x0B || k == 0x0C || k == 0x0D
    || k == 0x20 || k == 0xA0 || k == 0x1680
    || (0x2000 <= k <= 0x200A)
    || k == 0x2028 || k == 0x2029 || k == 0x202F || k == 0x205F
    || k == 0x3000 || k == 0xFEFF
  }

  predicate AllSpace(s: string)
  {
    forall i :: 0 <= i < |s| ==> IsJsSpace(s[i])
  }

  /** Neither the first nor the last character is white space. */
  predicate NoEdgeSpace(s: string)
  {
    s == [] || (!IsJsSpace(s[0]) && !IsJsSpace(s[|s| - 1]))
  }

  /** Drops the leading white space: the result is the longest suffix that
      starts with a non-space character (or is empty). */
  function TrimStart(s: string): (r: string)
    ensures |r| <= |s| && r == s[|s| - |r|..]
    ensures AllSpace(s[..|s| - |r|])
    ensures r == [] || !IsJsSpace(r[0])
  {
    if s == [] || !IsJsSpace(s[0]) then s else TrimStart(s[1..])
  }

  /** Drops the trailing white space: the result is the longest prefix that
      ends with a non-space character (or is empty). */
  function TrimEnd(s: string): (r: string)
    ensures |r| <= |s| && r == s[..|r|]
    ensures AllSpace(s[|r|..])
    ensures r == [] || !IsJsSpace(r[|r| - 1])
  {
    if s == [] || !IsJsSpace(s[|s| - 1]) then s else TrimEnd(s[..|s| - 1])
  }

  /** `s` is `r` padded with white space: `i` white-space characters before it
      and only white space after it. */
  predicate PaddedAt(s: string, r: string, i: nat)
  {
    && i + |r| <= |s|
    && s[i..i + |r|] == r
    && AllSpace(s[..i])
    && AllSpace(s[i + |r|..])
  }

  /** Padding on the left of `t`, then on the right of `r` within `t`, is
      padding of `r` within `s`. */
  lemma PaddedTwice(s: string, t: string, r: string)
    requires |t| <= |s| && t == s[|s| - |t|..] && AllSpace(s[..|s| - |t|])
    requires |r| <= |t| && r == t[..|r|] && AllSpace(t[|r|..])
    ensures PaddedAt(s, r, |s| - |t|)
  {
    var i := |s| - |t|;
    assert s[i..i + |r|] == t[..|r|];
    assert s[i + |r|..] == t[|r|..];
  }

  /** `String.prototype.trim` (section 22.1.3.32 of ECMA-262): the input is
      white space, then the result, then white space, and the result has no
      white space at either end. */
  function Trim(s: string): (r: string)
    ensures NoEdgeSpace(r)
    ensures PaddedAt(s, r, |s| - |TrimStart(s)|)
  {
    var t := TrimStart(s);
    var r := TrimEnd(t);
    assert r == [] || !IsJsSpace(r[0]) by {
      if r != [] {
        assert r[0] == t[0];
      }
    }
    PaddedTwice(s, t, r);
    r
  }

  /** `trim` undoes white-space padding: the partner of Trim's own contract,
      which together with it pins the result down exactly. */
  lemma {:induction false} TrimUnpads(lead: string, core: string, trail: string)
    requires AllSpace(lead) && AllSpace(trail) && NoEdgeSpace(core)
    ensures Trim(lead + core + trail) == core
  {
    var s := lead + core + trail;
    if core == [] {
      assert s == lead + trail;
      assert AllSpace(s);
      AllSpaceTrimStart(s);
      assert TrimEnd([]) == [];
    } else {
      assert s == lead + (core + trail);
      TrimStartUnpads(lead, core + trail);
      TrimEndUnpads(core, trail);
    }
    assert Trim(s) == TrimEnd(TrimStart(s));
  }

  lemma {:induction false} AllSpaceTrimStart(s: string)
    requires AllSpace(s)
    ensures TrimStart(s) == []
  {
    if s != [] {
      AllSpaceTrimStart(s[1..]);
    }
  }

  lemma {:induction false} TrimStartUnpads(lead: string, rest: string)
    requires AllSpace(lead)
    requires rest == [] || !IsJsSpace(rest[0])
    ensures TrimStart(lead + rest) == rest
    decreases |lead|
  {
    if lead != [] {
      assert (lead + rest)[1..] == lead[1..] + rest;
      TrimStartUnpads(lead[1..], rest);
    }
  }

  lemma {:induction false} TrimEndUnpads(rest: string, trail: string)
    requires AllSpace(trail)
    requires rest == [] || !IsJsSpace(rest[|rest| - 1])
    ensures TrimEnd(rest + trail) == rest
    decreases |trail|
  {
    if trail != [] {
      var s := rest + trail;
      assert s[..|s| - 1] == rest + trail[..|trail| - 1];
      TrimEndUnpads(rest, trail[..|trail| - 1]);
    } else {
      assert rest + trail == rest;
    }
  }

  /** A string with no white space at its ends is its own trim. */
  lemma TrimKeeps(s: string)
    requires NoEdgeSpace(s)
    ensures Trim(s) == s
  {
    TrimUnpads("", s, "");
    assert "" + s + "" == s;
  }

  /** Trimming twice is trimming once. */
  lemma TrimIdempotent(s: string)
    ensures Trim(Trim(s)) == Trim(s)
  {
    TrimUnpads("", Trim(s), "");
    assert "" + Trim(s) + "" == Trim(s);
  }
}

=== FILE: logger_state.dfy ===
/**
 The logger module as a state machine: its two pieces of module state (the
 settings behind `config` and the dedupe slot of `logPreReduceToConsole`) and
 the three things a caller can do to it.
 */
module LoggerState {
  import opened Optional
  import opened JsValues
  import opened Events
  import opened ConfigStore
  import opened ActionDeduper
  import opened ConsoleAdapter
  import opened Pipelines

  /** The module state: `params` and `prev`. */
  datatype Logger = Logger(params: Config, prev: Option<Action>)

  /** The state right after the module is loaded. */
  function ModuleLoad(): Logger
  {
    Logger(InitialConfig(), None)
  }

  /** A call of `config(addition)`, or a push into the input of some pre-reduce
      or post-reduce pluggable (which one does not matter: they share the state). */
  datatype Input =
    | CallConfig(addition: Addition)
    | PushAction(action: Action)
    | PushReduce(name: Value, state: Value, nextState: Value, cause: Option<Action>)

  /** What the caller sees: the settings `config` returns, or the event a
      pluggable's output passes on. */
  datatype Reply = Snapshot(config: Config) | Emitted(event: Event)

  datatype Outcome = Outcome(logger: Logger, trace: seq<ConsoleCall>, reply: Reply)

  /** The event a push carries. */
  function PushedEvent(i: Input): Event
    requires !i.CallConfig?
  {
    match i
    case PushAction(a) => ActionEvent(a)
    case PushReduce(n, s, t, c) => ReduceEvent(n, s, t, c)
  }

  /** One input. `config` merges its argument into the settings, logs nothing
      and leaves the slot alone; a push leaves the settings alone, makes the
      calls and slot change of its pluggable's step, and passes its event on;
      only an action push can change the slot. */
  function Handle(lg: Logger, cap: Capability, i: Input): (o: Outcome)
    ensures i.CallConfig? ==> o.trace == [] && o.logger.prev == lg.prev
    ensures i.CallConfig? ==> o.reply == Snapshot(o.logger.params)
    ensures i == CallConfig(NotAnObject) ==> o.logger == lg
    ensures !i.CallConfig? ==> o.logger.params == lg.params && o.reply == Emitted(PushedEvent(i))
    ensures !i.PushAction? ==> o.logger.prev == lg.prev
    ensures i.CallConfig? ==> o.logger.params == Merge(lg.params, i.addition)
    ensures i.PushAction? ==> var s := PreReduce(lg.params, cap, lg.prev, i.action);
      o.trace == s.trace && o.logger.prev == s.prev
    ensures i.PushReduce? ==> var s := PostReduce(lg.params, cap, lg.prev, i.name, i.state, i.nextState, i.cause);
      o.trace == s.trace && o.logger.prev == s.prev
  {
    match i
    case CallConfig(addition) =>
      var params := Merge(lg.params, addition);
      Outcome(Logger(params, lg.prev), [], Snapshot(params))
    case PushAction(a) =>
      var s := PreReduce(lg.params, cap, lg.prev, a);
      Outcome(Logger(lg.params, s.prev), s.trace, Emitted(s.out))
    case PushReduce(n, st, nx, c) =>
      var s := PostReduce(lg.params, cap, lg.prev, n, st, nx, c);
      Outcome(Logger(lg.params, s.prev), s.trace, Emitted(s.out))
  }

  /** The state, the console calls and the replies after a sequence of inputs. */
  datatype Session = Session(logger: Logger, trace: seq<ConsoleCall>, replies: seq<Reply>)

  function Run(lg: Logger, cap: Capability, inputs: seq<Input>): Session
    decreases |inputs|
  {
    if inputs == [] then Session(lg, [], [])
    else
      var o := Handle(lg, cap, inputs[0]);
      var rest := Run(o.logger, cap, inputs[1..]);
      Session(rest.logger, o.trace + rest.trace, [o.reply] + rest.replies)
  }

  /** The events a sequence of inputs pushes, in order. */
  function PushedEvents(inputs: seq<Input>): seq<Event>
    decreases |inputs|
  {
    if inputs == [] then []
    else (if inputs[0].CallConfig? then [] else [PushedEvent(inputs[0])]) + PushedEvents(inputs[1..])
  }

  /** The events the pluggables' outputs pass on, in order. */
  function EmittedEvents(replies: seq<Reply>): seq<Event>
    decreases |replies|
  {
    if replies == [] then []
    else (if replies[0].Emitted? then [replies[0].event] else []) + EmittedEvents(replies[1..])
  }

  /** Logging never filters: every pushed event comes out of the outputs, once
      and in order, whatever the predicate, the dedupe slot or the console. */
  lemma {:induction false} EveryPushIsEmitted(lg: Logger, cap: Capability, inputs: seq<Input>)
    ensures |Run(lg, cap, inputs).replies| == |inputs|
    ensures EmittedEvents(Run(lg, cap, inputs).replies) == PushedEvents(inputs)
    decreases |inputs|
  {
    if inputs != [] {
      var o := Handle(lg, cap, inputs[0]);
      var rest := Run(o.logger, cap, inputs[1..]);
      EveryPushIsEmitted(o.logger, cap, inputs[1..]);
      assert ([o.reply] + rest.replies)[1..] == rest.replies;
    }
  }

  /** Pushes never change the settings. */
  lemma {:induction false} PushesKeepSettings(lg: Logger, cap: Capability, inputs: seq<Input>)
    requires forall i :: 0 <= i < |inputs| ==> !inputs[i].CallConfig?
    ensures Run(lg, cap, inputs).logger.params == lg.params
    decreases |inputs|
  {
    if inputs != [] {
      PushesKeepSettings(Handle(lg, cap, inputs[0]).logger, cap, inputs[1..]);
    }
  }

  /** How many dispatch lines a trace holds. */
  function DispatchCount(t: seq<ConsoleCall>): nat
    decreases |t|
  {
    if t == [] then 0 else (if t[0].Info? then 1 else 0) + DispatchCount(t[1..])
  }

  lemma {:induction false} DispatchCountAppend(a: seq<ConsoleCall>, b: seq<ConsoleCall>)
    ensures DispatchCount(a + b) == DispatchCount(a) + DispatchCount(b)
    decreases |a|
  {
    if a != [] {
      assert (a + b)[1..] == a[1..] + b;
      DispatchCountAppend(a[1..], b);
    } else {
      assert a + b == b;
    }
  }

  /** A logged dispatch writes exactly one info line. */
  lemma OneDispatchLine(cfg: Config, cap: Capability, a: Action)
    ensures DispatchCount(LogDispatch(cfg, cap, a)) == 1
  {
    var t := LogDispatch(cfg, cap, a);
    assert !t[1].Info?;
    var t1 := t[1..];
    var t2 := t1[1..];
    var t3 := t2[1..];
    assert t1[0] == t[1] && t2[0] == t[2];
    assert DispatchCount(t) == DispatchCount(t1);
    assert DispatchCount(t1) == DispatchCount(t2);
    assert DispatchCount(t2) == 1 + DispatchCount(t3);
    if cap.hasGroupEnd {
      assert t3 == [GroupEnd];
      assert DispatchCount(t3) == DispatchCount(t3[1..]);
      assert t3[1..] == [];
    } else {
      assert t3 == [];
    }
  }

  /** A sequence of action pushes, one after the other. */
  function Pushes(actions: seq<Action>): (inputs: seq<Input>)
    ensures |inputs| == |actions|
    ensures forall i :: 0 <= i < |actions| ==> inputs[i] == PushAction(actions[i])
  {
    if actions == [] then [] else [PushAction(actions[0])] + Pushes(actions[1..])
  }

  /** The actions the predicate lets through. */
  function Accepted(cfg: Config, actions: seq<Action>): (r: seq<Action>)
    ensures |r| <= |actions|
    decreases |actions|
  {
    if actions == [] then []
    else (if ShouldLog(cfg, ActionEvent(actions[0])) then [actions[0]] else []) + Accepted(cfg, actions[1..])
  }

  /** Over a run of action pushes, a dispatch is logged once per change of id
      among the actions the predicate accepts, counting from the id in the slot;
      rejected actions are invisible to the dedupe filter. */
  lemma {:induction false} DispatchesFollowIdChanges(lg: Logger, cap: Capability, actions: seq<Action>)
    ensures DispatchCount(Run(lg, cap, Pushes(actions)).trace)
         == IdChanges(SlotId(lg.prev), Ids(Accepted(lg.params, actions)))
    decreases |actions|
  {
    if actions != [] {
      var a := actions[0];
      var inputs := Pushes(actions);
      assert inputs[0] == PushAction(a);
      assert inputs[1..] == Pushes(actions[1..]);
      var o := Handle(lg, cap, inputs[0]);
      var s := PreReduce(lg.params, cap, lg.prev, a);
      assert o.trace == s.trace && o.logger == Logger(lg.params, s.prev);
      DispatchesFollowIdChanges(o.logger, cap, actions[1..]);
      DispatchCountAppend(o.trace, Run(o.logger, cap, inputs[1..]).trace);
      if s.trace != [] {
        assert s.trace == LogDispatch(lg.params, cap, a);
        OneDispatchLine(lg.params, cap, a);
      }
      var acc := Accepted(lg.params, actions);
      if ShouldLog(lg.params, ActionEvent(a)) {
        assert acc == [a] + Accepted(lg.params, actions[1..]);
        assert Ids(acc)[1..] == Ids(Accepted(lg.params, actions[1..]));
      } else {
        assert acc == Accepted(lg.params, actions[1..]);
      }
    }
  }
}

=== FILE: optional.dfy ===
/** A value that may be missing: the dedupe slot before the first logged
    action, a key an addition does not have, a store event without an action. */
module Optional {

  datatype Option<+T> = None | Some(value: T)
}

=== FILE: pipelines.dfy ===
/**
 The two pluggables' side effects and the logger's module state.

 `getPreReduce()` and `getPostReduce()` each return a bus whose output is the
 input with a logging side effect attached; the event itself always passes on
 unchanged. The settings and the dedupe slot live in the module, not in a
 pluggable, so every pre-reduce pluggable shares one slot: a push through any
 of them is a step of the same `Logger` state.
 */
module Pipelines {
  import opened Optional
  import opened JsValues
  import opened Events
  import opened ConfigStore
  import opened ActionDeduper
  import opened ConsoleAdapter

  /** The header title of a dispatched action. */
  function ActionTitle(a: Action): string
  {
    "ACTION_" + ToJsString(a.kind)
  }

  /** The header title of a store transition; note the leading space. */
  function StoreTitle(name: Value): string
  {
    " STORE_" + ToJsString(name)
  }

  /** The calls a logged dispatch makes, in order: a blank line, the header,
      the dispatched action on the info sink, and a group end if the console
      has one. */
  ghost predicate DispatchTrace(t: seq<ConsoleCall>, cfg: Config, cap: Capability, a: Action)
  {
    && |t| == (if cap.hasGroupEnd then 4 else 3)
    && t[0] == Log(LogSink(cfg), [Text("\n")])
    && IsHeader(t[1], cfg, cap, ActionTitle(a))
    && t[2] == Info(InfoSink(cfg), [Text("dispatch:"), ActionArg(a)])
    && (cap.hasGroupEnd ==> t[3] == GroupEnd)
  }

  /** The calls a logged store transition makes, in order: the header, the old
      and the new state on the log sink, and a group end if the console has one. */
  ghost predicate TransitionTrace(t: seq<ConsoleCall>, cfg: Config, cap: Capability, name: Value, state: Value, nextState: Value)
  {
    && |t| == (if cap.hasGroupEnd then 4 else 3)
    && IsHeader(t[0], cfg, cap, StoreTitle(name))
    && t[1] == Log(LogSink(cfg), [Text("from state:"), ValueArg(state)])
    && t[2] == Log(LogSink(cfg), [Text("next state:"), ValueArg(nextState)])
    && (cap.hasGroupEnd ==> t[3] == GroupEnd)
  }

  /** The body wrapped by `skipDupeAction` in `logPreReduceToConsole`. */
  function LogDispatch(cfg: Config, cap: Capability, a: Action): (t: seq<ConsoleCall>)
    ensures DispatchTrace(t, cfg, cap, a)
  {
    var head := [ ConsoleLog(cfg, [Text("\n")]),
                  ConsoleGroup(cfg, cap, ActionTitle(a)),
                  ConsoleInfo(cfg, [Text("dispatch:"), ActionArg(a)]) ];
    var t := head + ConsoleGroupEnd(cap);
    assert t[0] == head[0] && t[1] == head[1] && t[2] == head[2];
    assert cap.hasGroupEnd ==> t[3] == ConsoleGroupEnd(cap)[0];
    t
  }

  /** `logPostReduceToConsole`: nothing unless the state changed (`!==`). */
  function LogTransition(cfg: Config, cap: Capability, name: Value, state: Value, nextState: Value): (t: seq<ConsoleCall>)
    ensures t == [] <==> state == nextState
    ensures t != [] ==> TransitionTrace(t, cfg, cap, name, state, nextState)
  {
    if state != nextState then
      var head := [ ConsoleGroup(cfg, cap, StoreTitle(name)),
                    ConsoleLog(cfg, [Text("from state:"), ValueArg(state)]),
                    ConsoleLog(cfg, [Text("next state:"), ValueArg(nextState)]) ];
      var t := head + ConsoleGroupEnd(cap);
      assert t[0] == head[0] && t[1] == head[1] && t[2] == head[2];
      assert cap.hasGroupEnd ==> t[3] == ConsoleGroupEnd(cap)[0];
      t
    else []
  }

  /** `shouldLog(event)`: the configured predicate's verdict, read from the
      settings current at the push; under the default predicate an event is
      logged unless its action has `skipLog === true`. */
  function ShouldLog(cfg: Config, e: Event): (r: bool)
    ensures r == cfg.predicateFn(e)
    ensures cfg.predicateFn == InitialConfig().predicateFn ==>
      (r <==> !(EventAction(e).Some? && EventAction(e).value.skipLog == Bool(true)))
  {
    cfg.predicateFn(e)
  }

  /** What one push does: the dedupe slot afterwards, the console calls made,
      and the event passed downstream. */
  datatype Step = Step(prev: Option<Action>, trace: seq<ConsoleCall>, out: Event)

  /** A push of `{ action }` into a pre-reduce pluggable (`logPreReduce`). The
      predicate is asked first, so a rejected action leaves the slot alone;
      an accepted one goes through the dedupe filter. */
  function PreReduce(cfg: Config, cap: Capability, prev: Option<Action>, a: Action): (s: Step)
    ensures s.out == ActionEvent(a)
    ensures !ShouldLog(cfg, ActionEvent(a)) ==> s.trace == [] && s.prev == prev
    ensures s.trace != [] <==> ShouldLog(cfg, ActionEvent(a)) && SlotId(prev) != Some(a.id)
    ensures s.trace != [] ==> DispatchTrace(s.trace, cfg, cap, a) && s.prev == Some(a)
    ensures ShouldLog(cfg, ActionEvent(a)) ==> SlotId(s.prev) == Some(a.id)
    ensures s.trace == [] ==> s.prev == prev
  {
    var e := ActionEvent(a);
    if ShouldLog(cfg, e) then
      var d := SkipDupeAction(prev, a);
      Step(d.prev, if d.forward then LogDispatch(cfg, cap, a) else [], e)
    else
      Step(prev, [], e)
  }

  /** A push of `{ name, action, state, nextState }` into a post-reduce pluggable
      (`logPostReduce`): no dedupe, and nothing logged for an unchanged state. */
  function PostReduce(cfg: Config, cap: Capability, prev: Option<Action>, name: Value, state: Value, nextState: Value, cause: Option<Action>): (s: Step)
    ensures s.out == ReduceEvent(name, state, nextState, cause)
    ensures s.prev == prev
    ensures s.trace != [] <==> ShouldLog(cfg, ReduceEvent(name, state, nextState, cause)) && state != nextState
    ensures s.trace != [] ==> TransitionTrace(s.trace, cfg, cap, name, state, nextState)
  {
    var e := ReduceEvent(name, state, nextState, cause);
    Step(prev, if ShouldLog(cfg, e) then LogTransition(cfg, cap, name, state, nextState) else [], e)
  }
}

=== FILE: scenarios.dfy ===
/**
 The behaviours the repository's own tests exercise, stated for the model.
 The tests install two stub sinks with `config({ consoleLog, consoleInfo })`
 before each case. The flat-header tests assume a host without grouping (a
 terminal); the group tests assume a browser-like host with a `window` and
 both group functions. No single host satisfies both, as
 `HeaderTestsNeedDifferentHosts` shows.
 */
module Scenarios {
  import opened Optional
  import opened JsValues
  import opened Events
  import opened ConfigStore
  import opened ActionDeduper
  import opened ConsoleAdapter
  import opened Pipelines
  import opened LoggerState

  /** A terminal host: no `window`, but a console with all group functions. */
  const Terminal: Capability := Capability(false, true, true, true)

  /** A browser host with all group functions. */
  const Browser: Capability := Capability(true, true, true, true)

  /** An addition that sets exactly one key. */
  function SetCollapsed(v: Value): Partial { Partial(Some(v), None, None, None, map[]) }
  function SetPredicate(f: Event -> bool): Partial { Partial(None, Some(f), None, None, map[]) }
  function SetConsoleLog(o: Override): Partial { Partial(None, None, Some(o), None, map[]) }
  function SetConsoleInfo(o: Override): Partial { Partial(None, None, None, Some(o), map[]) }

  /** A dispatch of an action typed `type` in a terminal, through stub sinks:
      a blank line and the styled header go to the log stub (the header last),
      the action to the info stub, then the console's group end. */
  lemma ActionTypeHeader(cfg: Config, prev: Option<Action>, a: Action, logStub: nat, infoStub: nat)
    requires cfg.consoleLog == Use(logStub) && cfg.consoleInfo == Use(infoStub)
    requires a.kind == Str("type") && ShouldLog(cfg, ActionEvent(a)) && SlotId(prev) != Some(a.id)
    ensures PreReduce(cfg, Terminal, prev, a).trace
         == [ Log(Custom(logStub), [Text("\n")]),
              Log(Custom(logStub), [Text(BoldCyan("ACTION_type"))]),
              Info(Custom(infoStub), [Text("dispatch:"), ActionArg(a)]),
              GroupEnd ]
  {
    var title := "ACTION_type";
    assert ActionTitle(a) == title;
    assert NoEdgeSpace(title) by {
      assert title[0] == 'A' && title[|title| - 1] == 'e';
    }
    TrimKeeps(title);
    assert ConsoleGroup(cfg, Terminal, title) == Log(Custom(logStub), [Text(BoldCyan(title))]);
    assert PreReduce(cfg, Terminal, prev, a).trace == LogDispatch(cfg, Terminal, a);
  }

  /** Pushing the same action twice logs its dispatch once when its id is
      new to the slot, and never when the slot already holds it. */
  lemma DuplicateActionLoggedOnce(lg: Logger, cap: Capability, a: Action)
    requires ShouldLog(lg.params, ActionEvent(a))
    ensures DispatchCount(Run(lg, cap, [PushAction(a), PushAction(a)]).trace)
         == (if SlotId(lg.prev) == Some(a.id) then 0 else 1)
  {
    var o1 := Handle(lg, cap, PushAction(a));
    var s1 := PreReduce(lg.params, cap, lg.prev, a);
    assert o1.logger == Logger(lg.params, s1.prev) && SlotId(s1.prev) == Some(a.id);
    var o2 := Handle(o1.logger, cap, PushAction(a));
    assert o2.trace == PreReduce(lg.params, cap, s1.prev, a).trace == [];
    var inputs := [PushAction(a), PushAction(a)];
    assert inputs[1..] == [PushAction(a)] && inputs[1..][1..] == [];
    var last := Run(o2.logger, cap, []);
    assert last.trace == [];
    var second := Run(o1.logger, cap, inputs[1..]);
    assert second.trace == o2.trace + last.trace;
    assert second.trace == [];
    assert Run(lg, cap, inputs).trace == o1.trace + second.trace;
    assert o1.trace + [] == o1.trace;
    if o1.trace != [] {
      assert o1.trace == LogDispatch(lg.params, cap, a);
      OneDispatchLine(lg.params, cap, a);
    }
  }

  /** The store-name test pushes `{ name: 'test' }`: state and next state are
      both undefined, hence equal, so nothing at all is logged. */
  lemma StoreNameWithoutChangeLogsNothing(cfg: Config, cap: Capability, prev: Option<Action>)
    ensures PostReduce(cfg, cap, prev, Str("test"), Undefined, Undefined, None).trace == []
  {
  }

  /** With a changed state, a terminal writes the store header as the trimmed
      title: the leading space of `' STORE_'` is dropped. */
  lemma StoreHeaderTrimmed(cfg: Config, prev: Option<Action>, state: Value, nextState: Value)
    requires state != nextState && ShouldLog(cfg, ReduceEvent(Str("test"), state, nextState, None))
    ensures PostReduce(cfg, Terminal, prev, Str("test"), state, nextState, None).trace[0]
         == Log(LogSink(cfg), [Text(BoldCyan("STORE_test"))])
  {
    var core := "STORE_test";
    assert NoEdgeSpace(core) by {
      assert core[0] == 'S' && core[|core| - 1] == 't';
    }
    assert AllSpace(" ") by {
      assert " "[0] as int == 0x20;
    }
    TrimUnpads(" ", core, "");
    var title := StoreTitle(Str("test"));
    assert ToJsString(Str("test")) == "test";
    assert " " + core + "" == title;
    assert ConsoleGroup(cfg, Terminal, title) == Log(LogSink(cfg), [Text(BoldCyan(core))]);
    var t := LogTransition(cfg, Terminal, Str("test"), state, nextState);
    assert PostReduce(cfg, Terminal, prev, Str("test"), state, nextState, None).trace == t;
    assert t[0] == ConsoleGroup(cfg, Terminal, title);
  }

  /** `{ state: 'test' }` and `{ nextState: 'next' }` each differ from the other
      (undefined) state, so both states are logged on the log sink. */
  lemma StatesLogged(cfg: Config, cap: Capability, prev: Option<Action>)
    requires ShouldLog(cfg, ReduceEvent(Undefined, Str("test"), Undefined, None))
    requires ShouldLog(cfg, ReduceEvent(Undefined, Undefined, Str("next"), None))
    ensures PostReduce(cfg, cap, prev, Undefined, Str("test"), Undefined, None).trace[1]
         == Log(LogSink(cfg), [Text("from state:"), ValueArg(Str("test"))])
    ensures PostReduce(cfg, cap, prev, Undefined, Undefined, Str("next"), None).trace[2]
         == Log(LogSink(cfg), [Text("next state:"), ValueArg(Str("next"))])
  {
  }

  /** Setting an override to `null` sends the calls back to the host console,
      and leaves the other override where it was. */
  lemma NullOverrideFallsBack(cfg: Config, cap: Capability, prev: Option<Action>, a: Action)
    requires ShouldLog(cfg, ActionEvent(a)) && SlotId(prev) != Some(a.id)
    ensures var t := PreReduce(Merge(cfg, AnObject(SetConsoleLog(Unset))), cap, prev, a).trace;
      t[0] == Log(Ambient, [Text("\n")]) && t[2].to == InfoSink(cfg)
    ensures PreReduce(Merge(cfg, AnObject(SetConsoleInfo(Unset))), cap, prev, a).trace[2].to == Ambient
  {
  }

  /** In a browser the header is a group call: expanded while `collapsed` is
      falsy, collapsed once `config({ collapsed: true })` has run. */
  lemma BrowserGroups(cfg: Config, prev: Option<Action>, a: Action)
    requires !Truthy(cfg.collapsed)
    requires ShouldLog(cfg, ActionEvent(a)) && SlotId(prev) != Some(a.id)
    ensures PreReduce(cfg, Browser, prev, a).trace[1] == Group(ActionTitle(a))
    ensures PreReduce(Merge(cfg, AnObject(SetCollapsed(Bool(true)))), Browser, prev, a).trace[1]
         == GroupCollapsed(ActionTitle(a))
  {
  }

  /** A group end is written whenever the console has one, window or not. */
  lemma GroupEndWheneverAvailable(cfg: Config, cap: Capability, prev: Option<Action>, a: Action)
    requires cap.hasGroupEnd && ShouldLog(cfg, ActionEvent(a)) && SlotId(prev) != Some(a.id)
    ensures var t := PreReduce(cfg, cap, prev, a).trace; |t| == 4 && t[3] == GroupEnd
  {
  }

  /** The collapse test and the getter: `config({ collapsed: true })` makes the
      setting `true`, and `config()` then returns the same settings unchanged. */
  lemma ConfigureCollapse(lg: Logger, cap: Capability)
    ensures var o := Handle(lg, cap, CallConfig(AnObject(SetCollapsed(Bool(true)))));
      && o.logger.params.collapsed == Bool(true)
      && o.logger.params.predicateFn == lg.params.predicateFn
      && Handle(o.logger, cap, CallConfig(NotAnObject)) == Outcome(o.logger, [], Snapshot(o.logger.params))
  {
  }

  /** A predicate that always answers false silences both pipelines: no call
      is made and the slot is untouched, yet every event still passes on. */
  lemma RejectingPredicateSilences(lg: Logger, cap: Capability, later: Input)
    requires !later.CallConfig?
    ensures var o := Handle(lg, cap, CallConfig(AnObject(SetPredicate(_ => false))));
      var p := Handle(o.logger, cap, later);
      p.trace == [] && p.logger.prev == lg.prev && p.reply == Emitted(PushedEvent(later))
  {
  }

  /** The predicate is asked before the dedupe filter: an action it rejects
      does not enter the slot, so the next accepted action with that id is
      still logged. */
  lemma PredicateBeforeDedupe(cfg: Config, cap: Capability, prev: Option<Action>, skipped: Action, next: Action)
    requires skipped.id == next.id && SlotId(prev) != Some(next.id)
    requires !ShouldLog(cfg, ActionEvent(skipped)) && ShouldLog(cfg, ActionEvent(next))
    ensures PreReduce(cfg, cap, PreReduce(cfg, cap, prev, skipped).prev, next).trace != []
  {
  }

  /** The dedupe slot belongs to the module, not to a pluggable: a store event
      or a `config` call between two pushes of one action id does not reset
      it, so the second push logs nothing. */
  lemma SlotOutlivesOtherInputs(lg: Logger, cap: Capability, a: Action, b: Action, between: Input)
    requires a.id == b.id && !between.PushAction?
    requires ShouldLog(lg.params, ActionEvent(a))
    ensures var o1 := Handle(lg, cap, PushAction(a));
      var o2 := Handle(o1.logger, cap, between);
      Handle(o2.logger, cap, PushAction(b)).trace == []
  {
  }

  /** The flat-header test (a log line in the unstubbed host) and the two group
      tests (a group call once `group`, respectively `groupCollapsed`, is
      stubbed) cannot all hold in one host: the group tests need a window and
      both native group functions, and then the header is not a log line. */
  lemma HeaderTestsNeedDifferentHosts(cfg: Config, host: Capability, title: string)
    ensures !( && ConsoleGroup(cfg, host, title).Log?
               && !ConsoleGroup(cfg, host.(hasGroup := true), title).Log?
               && !ConsoleGroup(cfg, host.(hasGroupCollapsed := true), title).Log? )
  {
  }

  /** From module load, under the default predicate: an action marked
      `skipLog: true` is logged by neither pluggable, neither as a dispatch
      nor as the cause of a state change, and it does not enter the slot. An
      unmarked action is logged in both places. */
  lemma SkipLogSilencesBothPipelines(cap: Capability, a: Action, name: Value, state: Value, nextState: Value)
    requires state != nextState
    ensures var o := Handle(ModuleLoad(), cap, PushAction(a));
      && (a.skipLog == Bool(true) ==> o.trace == [] && o.logger == ModuleLoad())
      && (a.skipLog != Bool(true) ==> o.trace != [])
    ensures Handle(ModuleLoad(), cap, PushReduce(name, state, nextState, Some(a))).trace == []
            <==> a.skipLog == Bool(true)
  {
    var lg := ModuleLoad();
    assert lg.params == InitialConfig() && SlotId(lg.prev) == None;
    assert ShouldLog(lg.params, ActionEvent(a)) <==> a.skipLog != Bool(true);
    assert ShouldLog(lg.params, ReduceEvent(name, state, nextState, Some(a))) <==> a.skipLog != Bool(true);
    var pre := PreReduce(lg.params, cap, lg.prev, a);
    assert Handle(lg, cap, PushAction(a)).trace == pre.trace;
    assert Handle(lg, cap, PushAction(a)).logger == Logger(lg.params, pre.prev);
  }
}
